=== FILE: README.md ===
# diagram-creator, modelled in Dafny

The system turns a sentence into a Mermaid diagram. A single page
(`src/pages/index.tsx`) collects the text and a diagram template from a
fixed table (`src/components/select-template.tsx`), and posts both to the
route `/api/ask` (`src/pages/api/ask.ts`). The route asks `generate`
(`src/lib/generate.ts`) to build a prompt from the template's syntax guide,
fixed instructions and the text, and to send it to a chat-completion
service. It then rewrites the answer in four steps and returns it.

This project models those four files as pure functions over Dafny
datatypes, and proves what they promise:

- `strings.dfy` (`Strings`): `replaceAll` and `replace` with a string
  pattern, defined by left-to-right scanning over `seq<char>`. Each is
  related to an independent definition by `indexOf` (`IndexOf`). Also ASCII
  lower-casing and the JavaScript `\s` class.
- `sanitize.dfy` (`Sanitize`): the four-step rewrite of the completion
  text: fences, quotes, `end[End]`, first `mermaid`.
- `js.dfy` (`Js`): the JSON values a body field can hold, JavaScript
  truthiness, and `${v}` interpolation.
- `templates.dfy` (`Templates`): the template table, `find` on it, the
  label lookup and the rendered `<option>` list.
- `generate.dfy` (`Generate`): the key check, the syntax-guide path, the
  prompt, and how results and errors are shaped.
- `api.dfy` (`Api`): the route handler's 405 / 400 / 200 / 500 decision,
  and the exception that escapes it when the body is `null`.
- `client.dfy` (`Client`): the page state, the two halves of
  `handleFlow` as events, and the button, placeholder and display area.
- `wrappers.dfy` (`Wrappers`): `Option` and `Result`.

External collaborators are parameters. The API key, the completion
service and the dynamic import of syntax guides are the fields of
`Generate.Services`; `NODE_ENV` is an explicit argument of `Api.Handle`.
The run-time strings of `TemplateEnum` are a function
`Templates.EnumValues`, because the enum is declared in a file outside the
model (`src/lib/prompt-by-template`).

Behaviour of the code worth knowing, each proved:

- The submit guard `!input && !loading` (src/pages/index.tsx:29) returns
  early only when the input is empty and nothing is loading. A second
  submit while a request is in flight posts again
  (`Client.DoubleSubmitPostsTwice`). With an empty input it posts an empty
  input, which the route refuses with 400, and the page shows the issue
  message (`Client.EmptySubmitWhileLoadingEndsInError`).
- `generate` does not check for an empty input; only the route does,
  before calling it (`Api.FalsyInputSkipsGenerate`).
- An answer wrapped as "```mermaid", a body, "```" comes back as the body
  verbatim, so a line break after the opening tag is kept: "```mermaid",
  line break, "A", line break, "```" sanitises to line break, "A", line
  break (`Sanitize.SanitizeUnwrapsFencedAnswer`,
  `Sanitize.SanitizeFencedExample`).
- Nothing in the page clears an error (`Client.ErrorIsSticky`). After an
  error, a later successful answer shows the diagram while the button
  still reads "Retry" (`Client.RetryOutlivesSuccess`).
- A POST whose JSON body is `null` makes the destructuring at
  src/pages/api/ask.ts:13 throw before the `try` block, so the handler
  sends neither a 400 nor an `{error}` payload (`Api.Handle`).

## Model

| member | source | states |
|---|---|---|
| `Strings.ReplaceAll` | src/pages/api/ask.ts:23-25 | `replaceAll` with a string pattern; every character of its result comes from the input or from the replacement |
| `Strings.ReplaceFirst` | src/pages/api/ask.ts:26 | `replace` with a string pattern; every character of its result comes from the input or from the replacement |
| `Strings.IndexOfSpec` | src/pages/api/ask.ts:26 | The leftmost-occurrence search finds an occurrence with none before it, and finds nothing exactly when the pattern does not occur |
| `Strings.ReplaceAllSplice` | src/pages/api/ask.ts:23-25 | `replaceAll` rewrites the leftmost occurrence, keeps the text before it verbatim, and continues only after the match, so matches never overlap; with no occurrence the text is unchanged |
| `Strings.ReplaceFirstSplice` | src/pages/api/ask.ts:26 | `replace` with a string pattern rewrites the leftmost occurrence only; everything before and after it is kept verbatim |
| `Strings.NoMatchUnchanged` | src/pages/api/ask.ts:22-26 | Text in which the pattern does not occur passes through both rewrites unchanged |
| `Strings.ReplaceAllRemovesChar` | src/pages/api/ask.ts:24 | Replacing every occurrence of one character by text without that character leaves none behind |
| `Strings.ToLower` | src/lib/generate.ts:16 | `toLowerCase` keeps the length and lower-cases each character, leaving no upper-case letter (ASCII only) |
| `Sanitize.StripFences` | src/pages/api/ask.ts:23 | Step 1 adds no character and never lengthens the text |
| `Sanitize.SwapQuotes` | src/pages/api/ask.ts:24 | Step 2 leaves no double quote and adds no character other than the single quote |
| `Sanitize.PatchEndNodes` | src/pages/api/ask.ts:25 | Step 3 adds no character that is not in the input or in `ends[End]` |
| `Sanitize.DropTag` | src/pages/api/ask.ts:26 | Step 4 only removes text: it shortens text holding `mermaid` by exactly seven characters and returns other text unchanged |
| `Sanitize.Sanitize` | src/pages/api/ask.ts:22-26 | The four steps in source order; the result holds no double quote, since no step after step 2 introduces one |
| `Sanitize.StripFencesRun` | src/pages/api/ask.ts:23 | A maximal run of n backticks at the front of the text becomes n mod 3 backticks |
| `Sanitize.StripFencesRunInContext` | src/pages/api/ask.ts:23 | A maximal run of n backticks anywhere becomes n mod 3 backticks; the text on either side is stripped independently |
| `Sanitize.StripFencesSplit` | src/pages/api/ask.ts:23 | No fence marker straddles a boundary that follows a non-backtick, so stripping works piecewise there |
| `Sanitize.StripFencesLeavesNoFence` | src/pages/api/ask.ts:23 | After the fence-stripping step no "```" remains in the text |
| `Sanitize.SanitizeDropsFirstTagOnly` | src/pages/api/ask.ts:26 | The last step cuts out only the first `mermaid`; the text after it, with any later `mermaid`, is kept verbatim as the suffix |
| `Sanitize.SanitizeFixesCleanText` | src/pages/api/ask.ts:22-26 | Text with no "```", no double quote, no `end[End]` and no `mermaid` is returned unchanged |
| `Sanitize.DropTagJoins` | src/pages/api/ask.ts:26 | Deleting the first `mermaid` joins the text on either side of it, so a line break after "```mermaid" survives |
| `Sanitize.SanitizeCanRebuildFence` | src/pages/api/ask.ts:23-26 | Because `mermaid` is deleted last, "``mermaid`" sanitises to "```": the rewrite can output a fence marker |
| `Sanitize.SanitizeCanRebuildEndNode` | src/pages/api/ask.ts:25-26 | Likewise "end[mermaidEnd]" sanitises to `end[End]`, which the node patch never saw |
| `Sanitize.SanitizeRebuildsFenceFromLiteral` | src/pages/api/ask.ts:23-26 | `Sanitize("``mermaid`")` is "```" |
| `Sanitize.SanitizeRebuildsEndNodeFromLiteral` | src/pages/api/ask.ts:25-26 | `Sanitize("end[mermaidEnd]")` is `end[End]` |
| `Sanitize.SanitizeUnwrapsFencedAnswer` | src/pages/api/ask.ts:22-26 | An answer "```" + "mermaid" + body + "```", with no backtick, double quote or `end[End]` in the body, sanitises to the body verbatim, including a leading line break |
| `Sanitize.SanitizeFencedExample` | src/pages/api/ask.ts:22-26 | "```mermaid", line break, "A", line break, "```" sanitises to line break, "A", line break |
| `Js.Truthy` | src/pages/api/ask.ts:15 | A value is falsy exactly when it is `undefined`, `null`, `false`, `0` or the empty string; this decides the route's 400 |
| `Js.NatToStringRoundTrip` | src/lib/generate.ts:27 | The decimal text interpolated for a numeric input reads back as that number |
| `Js.Interpolate` | src/lib/generate.ts:27 | Interpolating a string gives the string itself; any other value gives non-empty text |
| `Templates.Table` | src/components/select-template.tsx:9-24 | The table has 13 entries and its first entry is Flowchart / `FLOWCHART` |
| `Templates.TableCaptionsDistinct` | src/components/select-template.tsx:10-22 | The labels are pairwise distinct |
| `Templates.TableValuesDistinct` | src/components/select-template.tsx:10-22 | No template value is listed twice |
| `Templates.EveryTemplateOnce` | src/components/select-template.tsx:9-24 | Every member the table lists appears in it exactly once, `CLASS` included; the second `CLASS` entry is commented out |
| `Templates.FindByValue` | src/pages/index.tsx:23 | `find` returns the first entry whose value equals the selection, or nothing when no entry does |
| `Templates.LabelFor` | src/pages/index.tsx:22-25 | The label lookup always yields a table label: the first matching entry's label, or "Flowchart" when none matches |
| `Templates.LabelOfListedValue` | src/pages/index.tsx:22-25 | With distinct enum strings, selecting an entry's value shows that entry's label |
| `Templates.RenderOptions` | src/components/select-template.tsx:33-37 | One option per table entry, in table order, with value `item.value` and key and text `item.label` |
| `Templates.RenderedKeysDistinct` | src/components/select-template.tsx:34 | The rendered options' keys are pairwise distinct |
| `Generate.DocPath` | src/lib/generate.ts:15-17 | The syntax guide is imported from "./syntax/" + lower-cased template + ".md" |
| `Generate.RequestLine` | src/lib/generate.ts:27 | The last prompt line starts with "Create a " and the template, and ends with the input verbatim |
| `Generate.Prompt` | src/lib/generate.ts:19-27 | The prompt starts with the syntax guide verbatim, has the fixed instruction block right after it, and ends with the request line, so with the input |
| `Generate.PromptDeterminesInput` | src/lib/generate.ts:19-27 | For one guide and template, two prompts are equal exactly when the inputs are |
| `Generate.Rethrown` | src/lib/generate.ts:42-44 | The rethrown error keeps a non-empty message and replaces an empty one by "Failed to generate diagram" |
| `Generate.ToLowerCaseTypeError` | src/lib/generate.ts:16 | A template that is not a string makes `toLowerCase` throw, with a non-empty message |
| `Generate.Generate` | src/lib/generate.ts:4-46 | Without a key it fails with the configuration message; a non-string template fails with a TypeError; a failed import or completion fails with the rethrown message; a null or empty content gives empty text; every failure has a non-empty message |
| `Generate.KeyCheckComesFirst` | src/lib/generate.ts:6-9 | Without a key the outcome does not depend on the syntax guides or the completion service |
| `Generate.GenerateConsultsOnly` | src/lib/generate.ts:15-34 | The outcome depends on the guides only at `DocPath` and on the completion service only at the assembled prompt |
| `Api.EffectiveTemplate` | src/pages/api/ask.ts:13 | The template defaults to `FLOWCHART` only when the field is absent; a present value, even a falsy one, is passed on |
| `Api.ErrorText` | src/pages/api/ask.ts:31-35 | A 500 carries the thrown message when `NODE_ENV` is "development", the fixed generic message otherwise |
| `Api.Handle` | src/pages/api/ask.ts:5-37 | 405 exactly for a non-POST; a POST with a `null` body throws a TypeError out of the handler; 400 exactly for a POST with a falsy input; otherwise 200 with the sanitised text when `generate` succeeds and 500 when it fails; a 200 text holds no double quote |
| `Api.NonPostIgnoresEverythingElse` | src/pages/api/ask.ts:9-11 | A non-POST gets the same 405 whatever the body, a `null` one included, and whatever the environment |
| `Api.FalsyInputSkipsGenerate` | src/pages/api/ask.ts:15-17 | A falsy input gets 400 whatever the key, guides and completion service, so `generate` is never reached |
| `Api.NullTemplateIsNotDefaulted` | src/pages/api/ask.ts:13-20 | A present `null` template is not defaulted; with a key configured the request ends in a 500 |
| `Api.ProductionHidesErrors` | src/pages/api/ask.ts:29-35 | Outside development a 500 carries only the generic message |
| `Client.Initial` | src/pages/index.tsx:10-19 | The page starts with empty input, chart and error, not loading, and the table's first value selected, so a first submit sends nothing |
| `Client.OnSubmit` | src/pages/index.tsx:27-36 | A submit issues no request, and changes nothing, exactly when the input is empty and nothing is loading; otherwise it sets loading and posts the input and template |
| `Client.OnSettle` | src/pages/index.tsx:38-48 | Non-empty text becomes the chart and leaves the error; empty or missing text, or a failure, sets the issue message and leaves the chart; loading ends either way |
| `Client.Step` | src/pages/index.tsx:27-49 | Only a submit issues a request; editing the input or choosing a template changes only that field |
| `Client.ErrorIsSticky` | src/pages/index.tsx:38-45 | Once set, the error stays set through any sequence of events |
| `Client.ChartIsSticky` | src/pages/index.tsx:38-42 | Once shown, a chart stays non-empty through any sequence of events |
| `Client.DoubleSubmitPostsTwice` | src/pages/index.tsx:29-36 | Two submits with a non-empty input issue two requests, the second while the first is loading |
| `Client.EmptySubmitWhileLoadingEndsInError` | src/pages/index.tsx:29-45 | An empty-input submit while loading still posts; the route answers 400 and the page shows the issue message |
| `Client.ReplyOf` | src/pages/index.tsx:33-45 | axios rejects exactly when the handler threw or the status is outside 2xx; otherwise the page sees text exactly when the payload is `{text}`, and then that text |
| `Client.Name` | src/pages/index.tsx:17 | The diagram name is empty for an empty input; otherwise it is as long as the input, each whitespace character becomes "-", and it holds no whitespace and no upper-case letter |
| `Client.ButtonText` | src/pages/index.tsx:92 | The button reads "Retry" exactly when an error is set, else "Generate " and the label |
| `Client.Placeholder` | src/pages/index.tsx:85 | The placeholder is "What the ", the lower-cased label, then " is about" |
| `Client.Display` | src/pages/index.tsx:58-72 | "Loading..." whenever loading, regardless of the chart; otherwise the diagram exactly when there is a chart, else the label |
| `Client.InitialShowsFlowchart` | src/pages/index.tsx:10-15 | The page starts on the table's first value, so it shows "Flowchart" and the button reads "Generate Flowchart" |
| `Client.InitialPlaceholder` | src/pages/index.tsx:85 | The initial placeholder is "What the flowchart is about" |
| `Client.RetryOutlivesSuccess` | src/pages/index.tsx:38-41 | After an error, a later answer with text shows the diagram while the button still reads "Retry" |

## Left out

- The chat-completion call (src/lib/generate.ts:11-13, 29-39) is the `complete` parameter: its model name, temperature and token limit are not modelled, and neither is constructing the client.
- The dynamic import of a syntax guide is the `syntaxDoc` parameter. The guides' contents are not part of this model.
- `process.env` reads become the `Generate.Services.apiKey` field and the `nodeEnv` argument of `Api.Handle`.
- `console.log` and `console.error` have no observable effect on results and are left out.
- `toLowerCase` is modelled for ASCII letters only; other letters keep their case.
- `Js.JsValue` holds integers only: fractional numbers, `NaN` and arrays are left out. `Object` stands for a plain object without an own `toString` key, which interpolates as "[object Object]".
- `Strings.ReplaceAll` and `Strings.ReplaceFirst` require a non-empty pattern. The route only uses non-empty literal patterns, and its replacement strings hold no `$` patterns, so these special cases of JavaScript's replace are not modelled.
- A body that is a string, number or boolean reads as both fields absent, which `Api.Body(Undefined, Undefined)` stands for.
- Api.Handle: only a JSON `null` body throws. The framework parses an absent body to `""` or `{}`, which is `Body(Undefined, Undefined)` and gets 400. The response the framework sends for the escaping exception is not modelled beyond axios rejecting it (`Client.ReplyOf`).
- Js.Interpolate: numbers are exact integers. JavaScript numbers are doubles, so an input above 2^53 is already rounded when parsed, `${n}` prints it with the shortest round-trip digits padded with zeros, and from 1e21 upward it uses exponent form ("1e+21"). The model prints the exact decimal instead. A JSON number of 1e309 or more parses to `Infinity` and prints as "Infinity". A JSON object with an own `toString` key that is not a function (such as `{"toString": 1}`) makes `${input}` at src/lib/generate.ts:27 throw a TypeError, so `generate` fails and the route answers 500; the model's `Object` prints "[object Object]" and the request goes on to the completion service.
- The Mermaid renderer, `next/image`, CSS classes and the navigation bar (src/components/nav.tsx) are presentation only.
- React's asynchronous state updates and axios's transport are left out. Each half of `handleFlow` is one discrete event (`Client.Submit`, `Client.Settle`), and a request's settlement is an event the caller supplies.
- `Generate.ToLowerCaseTypeError`: the TypeError texts, like `Api.NullBodyError`, are Node.js's wording. Only their being non-empty matters to the rest of the model.

=== FILE: api.dfy ===
/** The `/api/ask` route handler (src/pages/api/ask.ts). */
module Api {
  import opened Wrappers
  import opened Js
  import opened Templates
  import opened Generate
  import opened Sanitize

  /** The two fields the handler destructures from the request body. */
  datatype Body = Body(input: JsValue, selectedTemplate: JsValue)

  /** `verb` is the HTTP method. `body` is `None` for a JSON `null` body,
      which the destructuring cannot read. An absent body reaches the
      handler parsed as `""` or `{}`, that is `Body(Undefined, Undefined)`. */
  datatype Request = Request(verb: string, body: Option<Body>)

  /** The JSON object sent back: `{message}`, `{text}` or `{error}`. */
  datatype Payload = Message(message: string) | Text(text: string) | ErrorPayload(error: string)

  datatype Response = Response(status: int, payload: Payload)

  const MethodNotAllowed: string := "Method not allowed"
  const NoInput: string := "No input in the request"
  const GenericError: string := "An error occurred while generating the diagram"
  /** The TypeError Node.js throws when destructuring a `null` body. */
  const NullBodyError: string := "Cannot destructure property 'input' of 'req.body' as it is null."

  /** The destructuring default applies only to an absent field; a present
      falsy value such as `null` or `""` is passed on as it is. */
  function EffectiveTemplate(body: Body, ev: EnumValues): (r: JsValue)
    ensures body.selectedTemplate.Undefined? ==> r == Str(ev(FLOWCHART))
    ensures !body.selectedTemplate.Undefined? ==> r == body.selectedTemplate
  {
    if body.selectedTemplate.Undefined? then Str(ev(FLOWCHART)) else body.selectedTemplate
  }

  /** The error text of a 500: the thrown message under `NODE_ENV ==
      "development"`, a fixed message otherwise. */
  function ErrorText(nodeEnv: Option<string>, message: string): (r: string)
    ensures nodeEnv == Some("development") ==> r == message
    ensures nodeEnv != Some("development") ==> r == GenericError
  {
    if nodeEnv == Some("development") then message else GenericError
  }

  /** The handler. `nodeEnv` is `process.env.NODE_ENV`. A `Failure` is an
      exception that escapes the handler: destructuring a `null` body
      throws before the `try` block is entered. */
  function Handle(req: Request, nodeEnv: Option<string>, ev: EnumValues, sv: Services): (r: Result<Response, string>)
    ensures r.Failure? <==> req.verb == "POST" && req.body.None?
    ensures r.Failure? ==> r.error == NullBodyError
    ensures r.Success? ==> r.value.status in {200, 400, 405, 500}
    ensures r.Success? && r.value.status == 405 <==> req.verb != "POST"
    ensures r.Success? && r.value.status == 405 ==> r.value.payload == Message(MethodNotAllowed)
    ensures r.Success? && r.value.status == 400 <==>
      req.verb == "POST" && req.body.Some? && !Truthy(req.body.value.input)
    ensures r.Success? && r.value.status == 400 ==> r.value.payload == Message(NoInput)
    ensures r.Success? && r.value.status == 200 ==> r.value.payload.Text? && '"' !in r.value.payload.text
    ensures req.verb == "POST" && req.body.Some? && Truthy(req.body.value.input) ==>
      var g := Generate.Generate(req.body.value.input, EffectiveTemplate(req.body.value, ev), sv);
      && (g.Success? ==> r == Success(Response(200, Text(Sanitize.Sanitize(g.value)))))
      && (g.Failure? ==> r == Success(Response(500, ErrorPayload(ErrorText(nodeEnv, g.error)))))
  {
    if req.verb != "POST" then Success(Response(405, Message(MethodNotAllowed)))
    else if req.body.None? then Failure(NullBodyError)
    else if !Truthy(req.body.value.input) then Success(Response(400, Message(NoInput)))
    else match Generate.Generate(req.body.value.input, EffectiveTemplate(req.body.value, ev), sv)
      case Success(text) => Success(Response(200, Text(Sanitize.Sanitize(text))))
      case Failure(e) => Success(Response(500, ErrorPayload(ErrorText(nodeEnv, e))))
  }

  /** A method other than POST is refused whatever the body, even a
      `null` one, and whatever the environment. */
  lemma NonPostIgnoresEverythingElse(m: string, b1: Option<Body>, b2: Option<Body>, env1: Option<string>,
                                     env2: Option<string>, ev: EnumValues, sv1: Services, sv2: Services)
    requires m != "POST"
    ensures Handle(Request(m, b1), env1, ev, sv1) == Handle(Request(m, b2), env2, ev, sv2)
      == Success(Response(405, Message(MethodNotAllowed)))
  {
  }

  /** A falsy input is refused before `generate` could be reached: the
      response does not depend on the key, the guides or the completion. */
  lemma FalsyInputSkipsGenerate(req: Request, env: Option<string>, ev: EnumValues, sv1: Services, sv2: Services)
    requires req.verb == "POST" && req.body.Some? && !Truthy(req.body.value.input)
    ensures Handle(req, env, ev, sv1) == Handle(req, env, ev, sv2) == Success(Response(400, Message(NoInput)))
  {
  }

  /** A present `null` template is not replaced by the default: with a key
      configured, `toLowerCase` fails on it and the request ends in a 500. */
  lemma NullTemplateIsNotDefaulted(input: JsValue, env: Option<string>, ev: EnumValues, sv: Services)
    requires Truthy(input) && KeyConfigured(sv.apiKey)
    ensures var r := Handle(Request("POST", Some(Body(input, Null))), env, ev, sv);
      r.Success? && r.value.status == 500
  {
  }

  /** Outside development a 500 never carries the thrown message. */
  lemma ProductionHidesErrors(req: Request, env: Option<string>, ev: EnumValues, sv: Services)
    requires env != Some("development")
    ensures var r := Handle(req, env, ev, sv);
      r.Success? && r.value.status == 500 ==> r.value.payload == ErrorPayload(GenericError)
  {
  }
}

=== FILE: client.dfy ===
/** The page component (src/pages/index.tsx): its form state, the
    transitions `handleFlow` makes, and what it shows. Each awaited step of
    `handleFlow` is a separate event: the submit, then the settling of the
    request it issued. */
module Client {
  import opened Wrappers
  import opened Strings
  import opened Js
  import opened Templates
  import Api
  import Generate

  const IssueMessage: string := "Sorry! a small issue occurred"

  datatype State = State(input: string, loading: bool, chart: string, error: string, selectedTemplate: string)

  /** The state the page starts in: everything empty, nothing loading, and
      the table's first template selected, so a submit does nothing yet. */
  function Initial(ev: EnumValues): (s: State)
    ensures s.input == "" && s.chart == "" && s.error == "" && !s.loading
    ensures s.selectedTemplate == ev(Table()[0].value)
    ensures OnSubmit(s).sent.None?
  {
    State("", false, "", "", ev(FLOWCHART))
  }

  /** The body posted to the route. */
  datatype Post = Post(input: string, selectedTemplate: string)

  /** How the request settles: axios resolves with the reply's `text` field
      (absent or a string), or rejects. */
  datatype Reply = Answered(text: Option<string>) | Rejected

  datatype Event =
    | Edit(value: string)       // the input field's onChange
    | Choose(value: string)     // the template selector's onChange
    | Submit                    // the form's onSubmit
    | Settle(reply: Reply)      // the posted request resolves or rejects

  /** The next state, and the request issued on the way, if any. */
  datatype Transition = Transition(next: State, sent: Option<Post>)

  /** The first half of `handleFlow`. It returns early only when the input
      is empty and nothing is loading; a submit while loading goes ahead,
      even with an empty input. */
  function OnSubmit(s: State): (t: Transition)
    ensures t.sent.None? <==> s.input == "" && !s.loading
    ensures t.sent.None? ==> t.next == s
    ensures t.sent.Some? ==> t.next == s.(loading := true)
    ensures t.sent.Some? ==> t.sent.value == Post(s.input, s.selectedTemplate)
  {
    if s.input == "" && !s.loading then Transition(s, None)
    else Transition(s.(loading := true), Some(Post(s.input, s.selectedTemplate)))
  }

  /** True iff the reply holds non-empty text, the only case that shows a
      chart. */
  predicate HasText(reply: Reply) {
    reply.Answered? && reply.text.Some? && reply.text.value != ""
  }

  /** The second half of `handleFlow`. Text replaces the chart and leaves any
      earlier error in place; anything else sets the error and leaves the
      chart; either way loading ends. */
  function OnSettle(s: State, reply: Reply): (r: State)
    ensures !r.loading
    ensures r.input == s.input && r.selectedTemplate == s.selectedTemplate
    ensures HasText(reply) ==> r.chart == reply.text.value && r.error == s.error
    ensures !HasText(reply) ==> r.error == IssueMessage && r.chart == s.chart
  {
    if HasText(reply) then s.(chart := reply.text.value, loading := false)
    else s.(error := IssueMessage, loading := false)
  }

  /** One event. Only a submit issues a request; typing and choosing a
      template change nothing but their own field. */
  function Step(s: State, e: Event): (t: Transition)
    ensures t.sent.Some? ==> e.Submit?
    ensures e.Edit? ==> t.next == s.(input := e.value)
    ensures e.Choose? ==> t.next == s.(selectedTemplate := e.value)
  {
    match e
    case Edit(v) => Transition(s.(input := v), None)
    case Choose(v) => Transition(s.(selectedTemplate := v), None)
    case Submit => OnSubmit(s)
    case Settle(reply) => Transition(OnSettle(s, reply), None)
  }

  /** The state after a sequence of events, and how many requests they
      issued. */
  function Run(s: State, events: seq<Event>): (State, nat)
    decreases |events|
  {
    if |events| == 0 then (s, 0)
    else
      var t := Step(s, events[0]);
      var (final, posts) := Run(t.next, events[1..]);
      (final, posts + (if t.sent.Some? then 1 else 0))
  }

  /** No event clears an error: once shown, it stays. */
  lemma {:induction false} ErrorIsSticky(s: State, events: seq<Event>)
    requires s.error != ""
    ensures Run(s, events).0.error != ""
    decreases |events|
  {
    if |events| > 0 {
      ErrorIsSticky(Step(s, events[0]).next, events[1..]);
    }
  }

  /** No event clears a chart: once shown, it stays. */
  lemma {:induction false} ChartIsSticky(s: State, events: seq<Event>)
    requires s.chart != ""
    ensures Run(s, events).0.chart != ""
    decreases |events|
  {
    if |events| > 0 {
      ChartIsSticky(Step(s, events[0]).next, events[1..]);
    }
  }

  /** Submitting twice with a non-empty input issues two requests: the
      loading flag does not hold back the second. */
  lemma DoubleSubmitPostsTwice(s: State)
    requires s.input != ""
    ensures Run(s, [Submit, Submit]).1 == 2
  {
    var t := OnSubmit(s);
    assert [Submit, Submit][1..] == [Submit];
    assert [Submit][1..] == [];
  }

  /** The reply the page sees for the route's outcome: axios rejects on any
      status outside 2xx, and on the error response the framework sends
      when the handler throws. Only a `{text}` payload supplies text. */
  function ReplyOf(outcome: Result<Api.Response, string>): (r: Reply)
    ensures r.Rejected? <==> outcome.Failure? || !(200 <= outcome.value.status < 300)
    ensures r.Answered? ==>
      (r.text.Some? <==> outcome.value.payload.Text?) &&
      (r.text.Some? ==> r.text.value == outcome.value.payload.text)
  {
    match outcome
    case Failure(_) => Rejected
    case Success(resp) =>
      if 200 <= resp.status < 300 then
        Answered(if resp.payload.Text? then Some(resp.payload.text) else None)
      else Rejected
  }

  /** The request the route receives for a post: always an object body. */
  function RequestOf(p: Post): Api.Request {
    Api.Request("POST", Some(Api.Body(Str(p.input), Str(p.selectedTemplate))))
  }

  /** A submit with an empty input while a request is in flight still posts;
      the route answers 400, and the page ends up showing the error. */
  lemma EmptySubmitWhileLoadingEndsInError(s: State, env: Option<string>, ev: EnumValues, sv: Generate.Services)
    requires s.loading && s.input == ""
    ensures var t := OnSubmit(s);
      && t.sent == Some(Post("", s.selectedTemplate))
      && Api.Handle(RequestOf(t.sent.value), env, ev, sv) == Success(Api.Response(400, Api.Message(Api.NoInput)))
      && OnSettle(t.next, ReplyOf(Api.Handle(RequestOf(t.sent.value), env, ev, sv))).error == IssueMessage
  {
  }

  /** `replace(/\s/g, "-")`: every whitespace character becomes a dash. */
  function DashWhitespace(s: string): (r: string)
    ensures |r| == |s|
    ensures forall i | 0 <= i < |s| :: r[i] == (if IsWhitespace(s[i]) then '-' else s[i])
  {
    if |s| == 0 then [] else [if IsWhitespace(s[0]) then '-' else s[0]] + DashWhitespace(s[1..])
  }

  /** The `name` passed to the diagram: the input with whitespace turned to
      dashes and then lower-cased; empty for an empty input. */
  function Name(input: string): (r: string)
    ensures |r| == |input|
    ensures forall i | 0 <= i < |r| :: !IsWhitespace(r[i]) && !IsUpper(r[i])
    ensures forall i | 0 <= i < |r| ::
      r[i] == (if IsWhitespace(input[i]) then '-' else LowerChar(input[i]))
  {
    if input == "" then "" else ToLower(DashWhitespace(input))
  }

  /** The button reads "Retry" exactly when an error is set. */
  function ButtonText(s: State, ev: EnumValues): (r: string)
    ensures r == "Retry" <==> s.error != ""
    ensures s.error == "" ==> r == "Generate " + LabelFor(ev, s.selectedTemplate)
  {
    if s.error != "" then "Retry" else "Generate " + LabelFor(ev, s.selectedTemplate)
  }

  /** The input field's placeholder for the selected template's label. */
  function Placeholder(shown: string): (r: string)
    ensures |r| == |shown| + 18
    ensures StartsWith(r, "What the ") && EndsWith(r, " is about")
    ensures r[9..|r| - 9] == ToLower(shown)
  {
    var r := "What the " + ToLower(shown) + " is about";
    assert r[|r| - 9..] == " is about";
    r
  }

  /** What the display area shows. */
  datatype View = LoadingView | DiagramView(chart: string, name: string) | SplashView(caption: string)

  /** Loading wins over everything; otherwise the diagram exactly when there
      is a chart, else the template's label. */
  function Display(s: State, ev: EnumValues): (v: View)
    ensures v.LoadingView? <==> s.loading
    ensures v.DiagramView? <==> !s.loading && s.chart != ""
    ensures v.DiagramView? ==> v.chart == s.chart && v.name == Name(s.input)
    ensures v.SplashView? ==> v.caption == LabelFor(ev, s.selectedTemplate)
  {
    if s.loading then LoadingView
    else if s.chart != "" then DiagramView(s.chart, Name(s.input))
    else SplashView(LabelFor(ev, s.selectedTemplate))
  }

  /** The page starts on the first table entry, so it names "Flowchart",
      whatever strings the enum uses. */
  lemma InitialShowsFlowchart(ev: EnumValues)
    ensures Initial(ev).selectedTemplate == ev(Table()[0].value)
    ensures LabelFor(ev, Initial(ev).selectedTemplate) == "Flowchart"
    ensures ButtonText(Initial(ev), ev) == "Generate Flowchart"
    ensures Display(Initial(ev), ev) == SplashView("Flowchart")
  {
    assert FindByValue(Table(), ev, ev(FLOWCHART)) == Some(0);
  }

  /** The initial placeholder asks what the flowchart is about. */
  lemma InitialPlaceholder(ev: EnumValues, s: State)
    requires s == Initial(ev)
    ensures Placeholder(LabelFor(ev, s.selectedTemplate)) == "What the " + "flowchart" + " is about"
  {
    InitialShowsFlowchart(ev);
    var shown := LabelFor(ev, s.selectedTemplate);
    FlowchartLowered(shown);
  }

  lemma FlowchartLowered(s: string)
    requires s == "Flowchart"
    ensures ToLower(s) == "flowchart"
  {
    var r := ToLower(s);
    forall i | 0 <= i < |s|
      ensures r[i] == "flowchart"[i]
    {
      assert r[i] == LowerChar(s[i]);
    }
  }

  /** After an error, a later answer with text shows the diagram while the
      button keeps reading "Retry". */
  lemma RetryOutlivesSuccess(s: State, text: string, ev: EnumValues)
    requires s.error != "" && text != ""
    ensures var r := OnSettle(s, Answered(Some(text)));
      Display(r, ev) == DiagramView(text, Name(s.input)) && ButtonText(r, ev) == "Retry"
  {
  }
}

=== FILE: generate.dfy ===
/** `generate` (src/lib/generate.ts): check the API key, load the syntax
    guide of the selected template, assemble the prompt, ask the completion
    service, and shape its answer or its error. */
module Generate {
  import opened Wrappers
  import opened Strings
  import opened Js

  const KeyMissingMessage: string :=
    "OpenAI API key not configured. Please add OPENAI_API_KEY to your .env.local file"

  const FallbackMessage: string := "Failed to generate diagram"

  /** The fixed text between the syntax guide and the request line. It
      starts with the line break and the four-space line that follow the
      guide in the template literal. */
  const Instructions: string :=
    "\n    \nInstructions:\n"
    + "- Use different shapes, colors and also use icons when possible as mentioned in the doc\n"
    + "- Do not add Note and do not explain the code and do not add any additional text except code\n"
    + "- Do not use 'end' syntax\n"
    + "- Do not use any parenthesis inside block\n\n"

  /** What `generate` reaches outside itself, passed in explicitly. */
  datatype Services = Services(
    /** `process.env.OPENAI_API_KEY`. */
    apiKey: Option<string>,
    /** The dynamic import of a syntax guide, by path: its text, or the
        message of the error the import throws. */
    syntaxDoc: string -> Result<string, string>,
    /** The chat completion for a prompt: the first choice's content
        (`None` for `null`), or the message of the error thrown. */
    complete: string -> Result<Option<string>, string>)

  /** `!apiKey` fails for an unset variable and for the empty string. */
  predicate KeyConfigured(apiKey: Option<string>) {
    apiKey.Some? && apiKey.value != ""
  }

  /** The module path the syntax guide is imported from. */
  function DocPath(template: string): (r: string)
    ensures |r| == |template| + 12
    ensures StartsWith(r, "./syntax/") && EndsWith(r, ".md")
    ensures r[9..|r| - 3] == ToLower(template)
  {
    "./syntax/" + ToLower(template) + ".md"
  }

  /** The last line of the prompt. */
  function RequestLine(template: string, input: string): (r: string)
    ensures EndsWith(r, input)
    ensures StartsWith(r, "Create a " + template)
  {
    "Create a " + template + " diagram in mermaid syntax about: " + input
  }

  /** The prompt: the guide verbatim, then the fixed instructions, then the
      request line naming the template and ending with the input verbatim. */
  function Prompt(doc: string, template: string, input: string): (r: string)
    ensures StartsWith(r, doc)
    ensures EndsWith(r, RequestLine(template, input)) && EndsWith(r, input)
    ensures |r| == |doc| + |Instructions| + |RequestLine(template, input)|
    ensures r[|doc|..|doc| + |Instructions|] == Instructions
  {
    var r := doc + Instructions + RequestLine(template, input);
    assert r[|r| - |input|..] == input;
    r
  }

  /** Two prompts for the same guide and template differ exactly when the
      inputs do: the input can be read back from the prompt. */
  lemma PromptDeterminesInput(doc: string, template: string, a: string, b: string)
    ensures Prompt(doc, template, a) == Prompt(doc, template, b) <==> a == b
  {
    if Prompt(doc, template, a) == Prompt(doc, template, b) {
      var pa, pb := Prompt(doc, template, a), Prompt(doc, template, b);
      assert |a| == |b|;
      assert a == pa[|pa| - |a|..] == pb[|pb| - |b|..] == b;
    }
  }

  /** `error.message || "Failed to generate diagram"` in the rethrow. */
  function Rethrown(message: string): (r: string)
    ensures r != ""
    ensures message != "" ==> r == message
  {
    if message == "" then FallbackMessage else message
  }

  /** The message of the TypeError `selectedTemplate.toLowerCase()` throws
      for a value that is not a string, in Node.js's wording. */
  function ToLowerCaseTypeError(v: JsValue): (r: string)
    requires !v.Str?
    ensures r != ""
  {
    match v
    case Undefined => "Cannot read properties of undefined (reading 'toLowerCase')"
    case Null => "Cannot read properties of null (reading 'toLowerCase')"
    case _ => "selectedTemplate.toLowerCase is not a function"
  }

  /** The body of the `try` block, before the `catch` rewrites the message. */
  function Attempt(input: JsValue, selectedTemplate: JsValue, sv: Services): Result<string, string> {
    if !KeyConfigured(sv.apiKey) then Failure(KeyMissingMessage)
    else match selectedTemplate
      case Str(template) =>
        (match sv.syntaxDoc(DocPath(template))
         case Failure(e) => Failure(e)
         case Success(doc) =>
           match sv.complete(Prompt(doc, template, Interpolate(input)))
           case Failure(e) => Failure(e)
           case Success(content) => Success(content.GetOr("")))
      case _ => Failure(ToLowerCaseTypeError(selectedTemplate))
  }

  /** `generate({input, selectedTemplate})`: the completion text (empty when
      the content is null or empty), or an error with a non-empty message. */
  function Generate(input: JsValue, selectedTemplate: JsValue, sv: Services): (r: Result<string, string>)
    ensures r.Failure? ==> r.error != ""
    ensures !KeyConfigured(sv.apiKey) ==> r == Failure(KeyMissingMessage)
    ensures KeyConfigured(sv.apiKey) && !selectedTemplate.Str? ==>
      r == Failure(ToLowerCaseTypeError(selectedTemplate))
    ensures KeyConfigured(sv.apiKey) && selectedTemplate.Str? ==>
      var doc := sv.syntaxDoc(DocPath(selectedTemplate.s));
      && (doc.Failure? ==> r == Failure(Rethrown(doc.error)))
      && (doc.Success? ==>
            var answer := sv.complete(Prompt(doc.value, selectedTemplate.s, Interpolate(input)));
            && (answer.Failure? ==> r == Failure(Rethrown(answer.error)))
            && (answer.Success? && (answer.value.None? || answer.value.value == "") ==> r == Success(""))
            && (answer.Success? && answer.value.Some? && answer.value.value != "" ==> r == Success(answer.value.value)))
  {
    match Attempt(input, selectedTemplate, sv)
    case Success(text) => Success(text)
    case Failure(e) => Failure(Rethrown(e))
  }

  /** Without a key nothing else is consulted: the outcome is the same
      whatever the guides and the completion service would have done. */
  lemma KeyCheckComesFirst(input: JsValue, selectedTemplate: JsValue, sv1: Services, sv2: Services)
    requires sv1.apiKey == sv2.apiKey && !KeyConfigured(sv1.apiKey)
    ensures Generate(input, selectedTemplate, sv1) == Generate(input, selectedTemplate, sv2)
  {
  }

  /** The only guide consulted is the one at `DocPath`, and the only prompt
      sent is the assembled one. */
  lemma GenerateConsultsOnly(input: JsValue, template: string, sv1: Services, sv2: Services)
    requires sv1.apiKey == sv2.apiKey
    requires sv1.syntaxDoc(DocPath(template)) == sv2.syntaxDoc(DocPath(template))
    requires sv1.syntaxDoc(DocPath(template)).Success? ==>
      var p := Prompt(sv1.syntaxDoc(DocPath(template)).value, template, Interpolate(input));
      sv1.complete(p) == sv2.complete(p)
    ensures Generate(input, Str(template), sv1) == Generate(input, Str(template), sv2)
  {
  }
}

=== FILE: js.dfy ===
/** The JavaScript values a JSON request body field can carry, their
    truthiness, and how a template literal `${v}` turns them into text. */
module Js {

  /** `Undefined` stands for a field that is absent from the body. Numbers
      are integers here. */
  datatype JsValue = Undefined | Null | Bool(b: bool) | Num(n: int) | Str(s: string) | Object

  /** JavaScript truthiness: `undefined`, `null`, `false`, `0` and `""` are
      falsy, everything else is truthy. */
  predicate Truthy(v: JsValue)
    ensures !Truthy(v) <==> v in {Undefined, Null, Bool(false), Num(0), Str("")}
  {
    match v
    case Undefined => false
    case Null => false
    case Bool(b) => b
    case Num(n) => n != 0
    case Str(s) => s != ""
    case Object => true
  }

  function Digit(d: nat): char
    requires d < 10
  {
    "0123456789"[d]
  }

  /** Decimal notation of a natural number, without leading zeros. */
  function NatToString(n: nat): (r: string)
    ensures |r| > 0 && forall i | 0 <= i < |r| :: '0' <= r[i] <= '9'
    ensures |r| > 1 ==> r[0] != '0'
    decreases n
  {
    if n < 10 then [Digit(n)] else NatToString(n / 10) + [Digit(n % 10)]
  }

  /** The number a string of decimal digits denotes. */
  function DigitsValue(s: string): nat
    requires forall i | 0 <= i < |s| :: '0' <= s[i] <= '9'
  {
    if |s| == 0 then 0
    else DigitsValue(s[..|s| - 1]) * 10 + (s[|s| - 1] as int - '0' as int)
  }

  /** Reading back the decimal notation gives the number written. */
  lemma {:induction false} NatToStringRoundTrip(n: nat)
    ensures DigitsValue(NatToString(n)) == n
    decreases n
  {
    var r := NatToString(n);
    if n >= 10 {
      NatToStringRoundTrip(n / 10);
      assert r[..|r| - 1] == NatToString(n / 10);
    }
  }

  function IntToString(i: int): string {
    if i < 0 then "-" + NatToString(-i) else NatToString(i)
  }

  /** The text `${v}` produces. `Object` is a plain, non-array object
      without an own `toString` key.
      Numbers are written as exact decimals, as JavaScript does for
      integers of magnitude up to 2^53. */
  function Interpolate(v: JsValue): (r: string)
    ensures v.Str? ==> r == v.s
    ensures !v.Str? ==> r != ""
  {
    match v
    case Undefined => "undefined"
    case Null => "null"
    case Bool(b) => if b then "true" else "false"
    case Num(n) => IntToString(n)
    case Str(s) => s
    case Object => "[object Object]"
  }
}

=== FILE: sanitize.dfy ===
/** The rewrite the API route applies to the completion text before
    returning it (src/pages/api/ask.ts:22-26): four steps, in this order. */
module Sanitize {
  import opened Wrappers
  import opened Strings

  const Fence: string := "```"
  const EndNode: string := "end[End]"
  const EndsNode: string := "ends[End]"
  const Tag: string := "mermaid"

  /** Step 1: remove every code-fence marker. Nothing is added. */
  function StripFences(s: string): (r: string)
    ensures |r| <= |s|
    ensures forall c | c in r :: c in s
  {
    ReplaceAll(s, Fence, "")
  }

  /** Step 2: every double quote becomes a single quote. */
  function SwapQuotes(s: string): (r: string)
    ensures '"' !in r
    ensures forall c | c in r :: c in s || c == '\''
  {
    ReplaceAllRemovesChar(s, '"', "'");
    ReplaceAll(s, "\"", "'")
  }

  /** Step 3: rename every node written `end[End]`. The only new text is
      the replacement node. */
  function PatchEndNodes(s: string): (r: string)
    ensures forall c | c in r :: c in s || c in EndsNode
  {
    ReplaceAll(s, EndNode, EndsNode)
  }

  /** Step 4: delete the first `mermaid` only; text without one is kept. */
  function DropTag(s: string): (r: string)
    ensures forall c | c in r :: c in s
    ensures Contains(s, Tag) ==> |r| == |s| - |Tag|
    ensures !Contains(s, Tag) ==> r == s
  {
    IndexOfSpec(s, Tag);
    ReplaceFirstSplice(s, Tag, "");
    ReplaceFirst(s, Tag, "")
  }

  /** The whole rewrite. Step 2 removes every double quote and no later
      step brings one back. */
  function Sanitize(raw: string): (r: string)
    ensures '"' !in r
  {
    DropTag(PatchEndNodes(SwapQuotes(StripFences(raw))))
  }

  /** A run of `n` backticks. */
  function Ticks(n: nat): (r: string)
    ensures |r| == n && forall i | 0 <= i < n :: r[i] == '`'
  {
    if n == 0 then [] else ['`'] + Ticks(n - 1)
  }

  /** A run of three or more backticks loses one complete marker. */
  lemma StripFencesDropsMarker(n: nat, t: string)
    requires n >= 3
    ensures StripFences(Ticks(n) + t) == StripFences(Ticks(n - 3) + t)
  {
    var s := Ticks(n) + t;
    assert Ticks(n) == Fence + Ticks(n - 3);
    assert s == Fence + (Ticks(n - 3) + t);
    assert StartsWith(s, Fence);
    assert s[3..] == Ticks(n - 3) + t;
  }

  /** A run of one or two backticks, followed by something else, keeps its
      first backtick. */
  lemma StripFencesKeepsShortRun(n: nat, t: string)
    requires 1 <= n < 3
    requires t == [] || t[0] != '`'
    ensures StripFences(Ticks(n) + t) == ['`'] + StripFences(Ticks(n - 1) + t)
  {
    var s := Ticks(n) + t;
    assert s[1..] == Ticks(n - 1) + t;
    if |s| < 3 {
      assert StripFences(s) == s;
      assert StripFences(s[1..]) == s[1..];
    } else {
      assert s[n] == t[0];
      assert !StartsWith(s, Fence);
    }
  }

  /** One or two backticks in front of something else are kept. */
  lemma {:induction false} StripFencesShortRun(m: nat, t: string)
    requires m < 3
    requires t == [] || t[0] != '`'
    ensures StripFences(Ticks(m) + t) == Ticks(m) + StripFences(t)
    decreases m
  {
    if m == 0 {
      assert Ticks(m) + t == t;
    } else {
      StripFencesKeepsShortRun(m, t);
      StripFencesShortRun(m - 1, t);
    }
  }

  /** A run of `3 * k + m` backticks (`m < 3`) in front of something else
      loses its `k` complete markers and keeps `m` backticks. */
  lemma {:induction false} StripFencesMarkers(k: nat, m: nat, t: string)
    requires m < 3
    requires t == [] || t[0] != '`'
    ensures StripFences(Ticks(3 * k + m) + t) == Ticks(m) + StripFences(t)
    decreases k
  {
    if k == 0 {
      StripFencesShortRun(m, t);
    } else {
      StripFencesDropsMarker(3 * k + m, t);
      StripFencesMarkers(k - 1, m, t);
      assert 3 * k + m - 3 == 3 * (k - 1) + m;
    }
  }

  /** A maximal run of `n` backticks at the front shrinks to `n % 3`
      backticks: each complete marker is removed, the remainder stays. */
  lemma StripFencesRun(n: nat, t: string)
    requires t == [] || t[0] != '`'
    ensures StripFences(Ticks(n) + t) == Ticks(n % 3) + StripFences(t)
  {
    var k, m := n / 3, n % 3;
    assert n == 3 * k + m;
    StripFencesMarkers(k, m, t);
  }

  /** Fence stripping works piecewise across a boundary that follows a
      character other than a backtick: no marker can straddle it. */
  lemma {:induction false} StripFencesSplit(u: string, v: string)
    requires u == [] || u[|u| - 1] != '`'
    ensures StripFences(u + v) == StripFences(u) + StripFences(v)
    decreases |u|
  {
    var s := u + v;
    if u == [] {
      assert s == v;
    } else if StartsWith(u, Fence) {
      assert s[..3] == Fence;
      assert s[3..] == u[3..] + v;
      StripFencesSplit(u[3..], v);
    } else if |s| < 3 {
      assert |v| < 3;
    } else {
      assert !StartsWith(s, Fence) by {
        if |u| < 3 {
          assert s[|u| - 1] == u[|u| - 1];
        } else {
          assert s[..3] == u[..3];
        }
      }
      assert s[1..] == u[1..] + v;
      StripFencesSplit(u[1..], v);
      if |u| < 3 {
        assert StripFences(u[1..]) == u[1..];
        assert u == [u[0]] + u[1..];
      }
    }
  }

  /** A maximal run of `n` backticks anywhere in the text becomes a run of
      `n % 3` backticks, the text around it being stripped independently. */
  lemma StripFencesRunInContext(u: string, n: nat, t: string)
    requires u == [] || u[|u| - 1] != '`'
    requires t == [] || t[0] != '`'
    ensures StripFences(u + (Ticks(n) + t)) == StripFences(u) + (Ticks(n % 3) + StripFences(t))
  {
    StripFencesSplit(u, Ticks(n) + t);
    StripFencesRun(n, t);
  }

  /** Stripping text that starts with another character keeps that
      character in front. */
  lemma StripFencesHead(t: string)
    requires |t| > 0 && t[0] != '`'
    ensures |StripFences(t)| > 0 && StripFences(t)[0] == t[0]
  {
    if |t| >= 3 {
      assert !StartsWith(t, Fence);
    }
  }

  /** After a lone backtick or a pair that does not begin a marker, the
      stripped rest cannot supply the two backticks that would complete one. */
  lemma StripFencesAfterTick(s: string)
    requires |s| > 0 && s[0] == '`' && !StartsWith(s, Fence)
    ensures !StartsWith(StripFences(s[1..]), "``")
  {
    var t := s[1..];
    if |t| == 0 {
    } else if t[0] != '`' {
      StripFencesHead(t);
    } else if |t| == 1 {
    } else {
      assert t[1] != '`' by {
        if |s| >= 3 {
          assert s[..3] != Fence;
        }
      }
      if |t| >= 3 {
        assert !StartsWith(t, Fence);
        StripFencesHead(t[1..]);
        var r := StripFences(t);
        assert r == ['`'] + StripFences(t[1..]);
        assert r[1] == t[1];
      }
    }
  }

  /** No code-fence marker survives step 1. */
  lemma {:induction false} StripFencesLeavesNoFence(s: string)
    ensures !Contains(StripFences(s), Fence)
    decreases |s|
  {
    var r := StripFences(s);
    if |s| < 3 {
      forall i | 0 <= i <= |r|
        ensures !StartsWith(r[i..], Fence)
      {
      }
    } else if StartsWith(s, Fence) {
      StripFencesLeavesNoFence(s[3..]);
      assert r == StripFences(s[3..]);
    } else {
      var w := StripFences(s[1..]);
      StripFencesLeavesNoFence(s[1..]);
      assert r == [s[0]] + w;
      if s[0] == '`' {
        StripFencesAfterTick(s);
        assert !StartsWith([s[0]] + w, Fence) by {
          if |w| >= 2 {
            assert w[..2] == ([s[0]] + w)[1..3];
          }
        }
      }
      if s[0] != '`' {
        assert ([s[0]] + w)[0] != Fence[0];
      }
      ContainsCons(s[0], w, Fence);
    }
  }

  /** Step 4 cuts out the first `mermaid` of the patched text and keeps the
      rest verbatim, so every later occurrence survives. */
  lemma SanitizeDropsFirstTagOnly(raw: string)
    ensures var t := PatchEndNodes(SwapQuotes(StripFences(raw)));
      match IndexOf(t, Tag)
      case None => Sanitize(raw) == t
      case Some(i) =>
        && i + |Tag| <= |t|
        && Sanitize(raw) == t[..i] + t[i + |Tag|..]
        && EndsWith(Sanitize(raw), t[i + |Tag|..])
  {
    var t := PatchEndNodes(SwapQuotes(StripFences(raw)));
    ReplaceFirstSplice(t, Tag, "");
    match IndexOf(t, Tag)
    case None =>
    case Some(i) =>
      var r := Sanitize(raw);
      assert r == t[..i] + t[i + |Tag|..];
      assert r[|r| - |t[i + |Tag|..]|..] == t[i + |Tag|..];
  }

  /** Text with no marker, no double quote, no `end[End]` and no `mermaid`
      is returned unchanged. */
  lemma SanitizeFixesCleanText(s: string)
    requires !Contains(s, Fence) && '"' !in s
    requires !Contains(s, EndNode) && !Contains(s, Tag)
    ensures Sanitize(s) == s
  {
    NoMatchUnchanged(s, Fence, "");
    ContainsChar(s, '"');
    NoMatchUnchanged(s, "\"", "'");
    NoMatchUnchanged(s, EndNode, EndsNode);
    NoMatchUnchanged(s, Tag, "");
  }

  /** Deleting the first `mermaid` joins the text on either side of it. */
  lemma DropTagJoins(u: string, v: string)
    requires Tag[0] !in u
    ensures DropTag(u + Tag + v) == u + v
  {
    var s := u + Tag + v;
    assert s[|u|..] == Tag + v;
    forall j | 0 <= j < |u|
      ensures !StartsWith(s[j..], Tag)
    {
      assert s[j..][0] == u[j];
    }
    IndexOfAt(s, Tag, |u|);
    ReplaceFirstSplice(s, Tag, "");
    assert s[..|u|] == u && s[|u| + |Tag|..] == v;
  }

  /** Step 1 on a fenced block removes the two fences and nothing else. */
  lemma StripFencesUnwraps(inner: string)
    requires '`' !in inner && |inner| > 0
    ensures StripFences(Fence + inner + Fence) == inner
  {
    var s := Fence + inner + Fence;
    assert StartsWith(s, Fence) && s[3..] == inner + Fence;
    StripFencesSplit(inner, Fence);
    assert StripFences(Fence) == "" by {
      assert StartsWith(Fence, Fence) && Fence[3..] == "";
    }
    AbsentCharNotContained(inner, Fence, 0);
    NoMatchUnchanged(inner, Fence, "");
  }

  /** `mermaid` cannot end with the start of `end[End]`, so putting it in
      front of text creates no such node. */
  lemma TagAddsNoEndNode(body: string)
    requires !Contains(body, EndNode)
    ensures !Contains(Tag + body, EndNode)
  {
    var inner := Tag + body;
    forall i | 0 <= i <= |inner|
      ensures !StartsWith(inner[i..], EndNode)
    {
      if i < |Tag| && i + |EndNode| <= |inner| {
        if i == 1 {
          assert inner[i..][1] == inner[2] == 'r';
        } else {
          assert inner[i..][0] == inner[i] != 'e';
        }
      } else if i >= |Tag| {
        assert inner[i..] == body[i - |Tag|..];
      }
    }
  }

  /** An answer wrapped as a fenced `mermaid` block comes back as the text
      between the tag and the closing fence, verbatim: a line break that
      followed the opening "```mermaid" is kept. */
  lemma SanitizeUnwrapsFencedAnswer(body: string)
    requires '`' !in body && '"' !in body && !Contains(body, EndNode)
    ensures Sanitize(Fence + Tag + body + Fence) == body
  {
    var inner := Tag + body;
    assert Fence + Tag + body + Fence == Fence + inner + Fence;
    StripFencesUnwraps(inner);
    ContainsChar(inner, '"');
    NoMatchUnchanged(inner, "\"", "'");
    TagAddsNoEndNode(body);
    NoMatchUnchanged(inner, EndNode, EndsNode);
    DropTagJoins([], body);
    assert [] + Tag + body == inner;
  }

  /** A typical answer: a line break, a one-line diagram, a line break. */
  lemma SanitizeFencedExample(body: string)
    requires body == "\nA\n"
    ensures Sanitize(Fence + Tag + body + Fence) == "\nA\n"
  {
    AbsentCharNotContained(body, EndNode, 0);
    SanitizeUnwrapsFencedAnswer(body);
  }

  // `SanitizeFencedExample` receives its text as a parameter pinned by a
  // `requires`: with the literal in its `ensures`, the verifier unfolds
  // the recursive rewrites on it too far. The other examples are wrapped
  // below with their literals.

  /** Text the first three steps leave alone. */
  predicate FirstStepsKeep(s: string) {
    PatchEndNodes(SwapQuotes(StripFences(s))) == s
  }

  lemma FenceExampleKept(r: string)
    requires r == "``" + "mermaid" + "`"
    ensures FirstStepsKeep(r)
  {
    assert |r| == 10;
    forall i | 0 <= i <= |r|
      ensures !StartsWith(r[i..], Fence)
    {
      if i == 7 {
        assert r[i..][0] == r[7] == 'i';
      } else if i < 7 {
        assert r[i..][2] == r[i + 2] != '`';
      }
    }
    NoMatchUnchanged(r, Fence, "");
    AbsentCharNotContained(r, "\"", 0);
    NoMatchUnchanged(r, "\"", "'");
    AbsentCharNotContained(r, EndNode, 3);
    NoMatchUnchanged(r, EndNode, EndsNode);
  }

  lemma EndNodeExampleUnmatched(r: string)
    requires r == "end[" + "mermaid" + "End]"
    ensures !Contains(r, EndNode)
  {
    forall i | 0 <= i <= |r|
      ensures !StartsWith(r[i..], EndNode)
    {
      if i == 0 {
        assert r[4] == 'm';
      } else if i <= 7 {
        assert r[i + 3] != '[';
      }
    }
  }

  lemma EndNodeExampleKept(r: string)
    requires r == "end[" + "mermaid" + "End]"
    ensures FirstStepsKeep(r)
  {
    AbsentCharNotContained(r, Fence, 0);
    NoMatchUnchanged(r, Fence, "");
    AbsentCharNotContained(r, "\"", 0);
    NoMatchUnchanged(r, "\"", "'");
    EndNodeExampleUnmatched(r);
    NoMatchUnchanged(r, EndNode, EndsNode);
  }

  /** Because `mermaid` is deleted last, joining its neighbours can rebuild
      a marker that step 1 had no chance to remove. */
  lemma SanitizeCanRebuildFence(r: string)
    requires r == "``" + "mermaid" + "`"
    ensures Sanitize(r) == Fence
  {
    FenceExampleKept(r);
    DropTagJoins("``", "`");
  }

  /** Likewise it can rebuild an `end[End]` node that step 3 never saw. */
  lemma SanitizeCanRebuildEndNode(r: string)
    requires r == "end[" + "mermaid" + "End]"
    ensures Sanitize(r) == EndNode
  {
    EndNodeExampleKept(r);
    DropTagJoins("end[", "End]");
  }

  /** "``mermaid`" sanitises to a fence marker. */
  lemma SanitizeRebuildsFenceFromLiteral()
    ensures Sanitize("``mermaid`") == Fence
  {
    SanitizeCanRebuildFence("``mermaid`");
  }

  /** "end[mermaidEnd]" sanitises to `end[End]`. */
  lemma SanitizeRebuildsEndNodeFromLiteral()
    ensures Sanitize("end[mermaidEnd]") == EndNode
  {
    SanitizeCanRebuildEndNode("end[mermaidEnd]");
  }
}

=== FILE: strings.dfy ===
/** String operations the system relies on, defined over `seq<char>`:
    prefix and substring tests, the first-occurrence search behind
    `String.prototype.indexOf`, and the two rewrites `replaceAll` and
    `replace` with a string pattern. */
module Strings {
  import opened Wrappers

  predicate StartsWith(s: string, p: string) {
    |p| <= |s| && s[..|p|] == p
  }

  predicate EndsWith(s: string, p: string) {
    |p| <= |s| && s[|s| - |p|..] == p
  }

  /** True iff `p` occurs somewhere in `s`. */
  predicate Contains(s: string, p: string) {
    exists i | 0 <= i <= |s| :: StartsWith(s[i..], p)
  }

  /** Position of the leftmost occurrence of `p` in `s`, as `indexOf` finds it. */
  function IndexOf(s: string, p: string): Option<nat>
    decreases |s|
  {
    if StartsWith(s, p) then Some(0)
    else if |s| == 0 then None
    else
      match IndexOf(s[1..], p)
      case Some(i) => Some(i + 1)
      case None => None
  }

  /** `IndexOf` finds an occurrence, none earlier than it, and finds nothing
      exactly when `p` does not occur. */
  lemma {:induction false} IndexOfSpec(s: string, p: string)
    ensures IndexOf(s, p).Some? ==>
      var i := IndexOf(s, p).value;
      i <= |s| && StartsWith(s[i..], p) && forall j | 0 <= j < i :: !StartsWith(s[j..], p)
    ensures IndexOf(s, p).None? <==> !Contains(s, p)
    decreases |s|
  {
    if StartsWith(s, p) {
      assert StartsWith(s[0..], p);
    } else if |s| == 0 {
    } else {
      var t := s[1..];
      IndexOfSpec(t, p);
      assert forall j | 1 <= j <= |s| :: t[j - 1..] == s[j..];
      match IndexOf(t, p)
      case Some(i) =>
        assert t[i..] == s[i + 1..];
      case None =>
    }
  }

  /** `s.replaceAll(p, rep)`: scan left to right, replace each match of `p`
      and resume scanning after it, so matches never overlap and the text
      inserted by `rep` is never rescanned. */
  function ReplaceAll(s: string, p: string, rep: string): (r: string)
    requires |p| > 0
    ensures forall c | c in r :: c in s || c in rep
    ensures |rep| <= |p| ==> |r| <= |s|
    decreases |s|
  {
    if |s| < |p| then s
    else if StartsWith(s, p) then
      var rest := ReplaceAll(s[|p|..], p, rep);
      assert forall c | c in rest :: c in s || c in rep by {
        forall c | c in rest && c !in rep ensures c in s {
          var i :| 0 <= i < |s[|p|..]| && s[|p|..][i] == c;
          assert s[|p| + i] == c;
        }
      }
      rep + rest
    else
      var rest := ReplaceAll(s[1..], p, rep);
      assert forall c | c in rest :: c in s || c in rep by {
        forall c | c in rest && c !in rep ensures c in s {
          var i :| 0 <= i < |s[1..]| && s[1..][i] == c;
          assert s[1 + i] == c;
        }
      }
      [s[0]] + rest
  }

  /** `s.replace(p, rep)` with a string pattern: only the leftmost match is
      rewritten. */
  function ReplaceFirst(s: string, p: string, rep: string): (r: string)
    requires |p| > 0
    ensures forall c | c in r :: c in s || c in rep
    decreases |s|
  {
    if |s| < |p| then s
    else if StartsWith(s, p) then
      assert forall c | c in s[|p|..] :: c in s by {
        forall c | c in s[|p|..] ensures c in s {
          var i :| 0 <= i < |s[|p|..]| && s[|p|..][i] == c;
          assert s[|p| + i] == c;
        }
      }
      rep + s[|p|..]
    else
      var rest := ReplaceFirst(s[1..], p, rep);
      assert forall c | c in rest :: c in s || c in rep by {
        forall c | c in rest && c !in rep ensures c in s {
          var i :| 0 <= i < |s[1..]| && s[1..][i] == c;
          assert s[1 + i] == c;
        }
      }
      [s[0]] + rest
  }

  /** The splice at the leftmost occurrence of `p`, with `tail` applied to
      the text after it; `s` itself when `p` does not occur. */
  ghost predicate SplicedAt(s: string, p: string, rep: string, r: string, tail: string -> string) {
    match IndexOf(s, p)
    case None => r == s
    case Some(i) => i + |p| <= |s| && r == s[..i] + rep + tail(s[i + |p|..])
  }

  /** A character that does not start a match can be moved in front of a
      splice of the rest of the string. */
  lemma SpliceCons(s: string, p: string, rep: string, r: string, tail: string -> string)
    requires |s| > 0 && !StartsWith(s, p)
    requires SplicedAt(s[1..], p, rep, r, tail)
    ensures SplicedAt(s, p, rep, [s[0]] + r, tail)
  {
    var t := s[1..];
    match IndexOf(t, p)
    case None =>
      assert s == [s[0]] + t;
    case Some(i) =>
      assert IndexOf(s, p) == Some(i + 1);
      var rest := tail(t[i + |p|..]);
      assert rest == tail(s[i + 1 + |p|..]) by {
        assert t[i + |p|..] == s[i + 1 + |p|..];
      }
      calc {
        [s[0]] + r;
        [s[0]] + (t[..i] + rep + rest);
        { assert [s[0]] + t[..i] == s[..i + 1]; }
        s[..i + 1] + rep + rest;
      }
  }

  /** `replaceAll` agrees with a definition by `indexOf`: rewrite the leftmost
      occurrence and continue on the text after it; with no occurrence the
      string is returned as it is. */
  lemma {:induction false} ReplaceAllSplice(s: string, p: string, rep: string)
    requires |p| > 0
    ensures SplicedAt(s, p, rep, ReplaceAll(s, p, rep), t => ReplaceAll(t, p, rep))
    decreases |s|
  {
    if |s| < |p| {
      IndexOfSpec(s, p);
    } else if StartsWith(s, p) {
      assert IndexOf(s, p) == Some(0);
    } else {
      ReplaceAllSplice(s[1..], p, rep);
      SpliceCons(s, p, rep, ReplaceAll(s[1..], p, rep), t => ReplaceAll(t, p, rep));
    }
  }

  /** `replace` with a string pattern is the splice at the leftmost
      occurrence: everything before and after it is kept verbatim. */
  lemma {:induction false} ReplaceFirstSplice(s: string, p: string, rep: string)
    requires |p| > 0
    ensures SplicedAt(s, p, rep, ReplaceFirst(s, p, rep), t => t)
    decreases |s|
  {
    if |s| < |p| {
      IndexOfSpec(s, p);
    } else if StartsWith(s, p) {
      assert IndexOf(s, p) == Some(0);
    } else {
      ReplaceFirstSplice(s[1..], p, rep);
      SpliceCons(s, p, rep, ReplaceFirst(s[1..], p, rep), t => t);
    }
  }

  /** Text in which the pattern never occurs passes through both rewrites
      unchanged. */
  lemma NoMatchUnchanged(s: string, p: string, rep: string)
    requires |p| > 0
    requires !Contains(s, p)
    ensures ReplaceAll(s, p, rep) == s
    ensures ReplaceFirst(s, p, rep) == s
  {
    IndexOfSpec(s, p);
    ReplaceAllSplice(s, p, rep);
    ReplaceFirstSplice(s, p, rep);
  }

  /** Replacing every occurrence of a one-character pattern by text that
      does not hold that character leaves no occurrence behind. */
  lemma {:induction false} ReplaceAllRemovesChar(s: string, c: char, rep: string)
    requires c !in rep
    ensures c !in ReplaceAll(s, [c], rep)
    decreases |s|
  {
    if |s| < 1 {
    } else if StartsWith(s, [c]) {
      ReplaceAllRemovesChar(s[1..], c, rep);
    } else {
      ReplaceAllRemovesChar(s[1..], c, rep);
    }
  }

  /** A string that does not start with `p` after its first character, and
      does not contain `p` after that, does not contain `p` at all. */
  lemma ContainsCons(c: char, w: string, p: string)
    requires !StartsWith([c] + w, p)
    requires !Contains(w, p)
    ensures !Contains([c] + w, p)
  {
    var s := [c] + w;
    forall i | 1 <= i <= |s|
      ensures !StartsWith(s[i..], p)
    {
      assert s[i..] == w[i - 1..];
    }
  }

  /** A pattern holding a character that `s` lacks does not occur in `s`. */
  lemma AbsentCharNotContained(s: string, p: string, k: nat)
    requires k < |p| && p[k] !in s
    ensures !Contains(s, p)
  {
    forall i | 0 <= i <= |s|
      ensures !StartsWith(s[i..], p)
    {
      if i + |p| <= |s| {
        assert s[i..][k] == s[i + k];
      }
    }
  }

  /** An occurrence with none before it is the one `IndexOf` finds. */
  lemma IndexOfAt(s: string, p: string, i: nat)
    requires i <= |s| && StartsWith(s[i..], p)
    requires forall j | 0 <= j < i :: !StartsWith(s[j..], p)
    ensures IndexOf(s, p) == Some(i)
  {
    IndexOfSpec(s, p);
  }

  /** A one-character pattern occurs exactly when its character does. */
  lemma ContainsChar(s: string, c: char)
    ensures Contains(s, [c]) <==> c in s
  {
    if c in s {
      var i :| 0 <= i < |s| && s[i] == c;
      assert StartsWith(s[i..], [c]);
    }
    if Contains(s, [c]) {
      var i :| 0 <= i <= |s| && StartsWith(s[i..], [c]);
      assert s[i] == s[i..][0] == c;
    }
  }

  /** ASCII `toLowerCase`: 'A'..'Z' become 'a'..'z', all else is kept. */
  function LowerChar(c: char): char {
    if 'A' <= c <= 'Z' then (c as int - 'A' as int + 'a' as int) as char else c
  }

  predicate IsUpper(c: char) {
    'A' <= c <= 'Z'
  }

  function ToLower(s: string): (r: string)
    ensures |r| == |s|
    ensures forall i | 0 <= i < |s| :: r[i] == LowerChar(s[i]) && !IsUpper(r[i])
  {
    if |s| == 0 then [] else [LowerChar(s[0])] + ToLower(s[1..])
  }

  /** The characters the JavaScript regular-expression class `\s` matches. */
  predicate IsWhitespace(c: char) {
    || c == '\t' || c == '\n' || c == '\U{000B}' || c == '\U{000C}' || c == '\r' || c == ' '
    || c == '\U{00A0}' || c == '\U{1680}' || ('\U{2000}' <= c <= '\U{200A}')
    || c == '\U{2028}' || c == '\U{2029}' || c == '\U{202F}' || c == '\U{205F}'
    || c == '\U{3000}' || c == '\U{FEFF}'
  }
}

=== FILE: templates.dfy ===
/** The table of diagram templates offered by the template selector
    (src/components/select-template.tsx) and the lookups the page does on
    it. */
module Templates {
  import opened Wrappers

  /** The members of `TemplateEnum` that the table lists. */
  datatype TemplateEnum =
    | FLOWCHART | MINDMAP | TIMELINE | USERJOURNEY | CLASS | KANBAN | ENTITYRELATIONSHIP
    | SEQUENCE | STATE | GANTT | QUANDRANT | SANKEY | ARCHITECTURE

  /** One entry of the table; `caption` is the entry's display label. */
  datatype Template = Template(caption: string, value: TemplateEnum)

  /** The string each enum member stands for at run time. The enum is
      declared outside this model, so its values are a parameter. */
  type EnumValues = TemplateEnum -> string

  /** Distinct members have distinct strings. */
  predicate Injective(ev: EnumValues) {
    forall a, b :: a != b ==> ev(a) != ev(b)
  }

  /** Number of entries of `t` whose value is `v`. */
  function CountValue(t: seq<Template>, v: TemplateEnum): (r: nat)
    ensures r <= |t|
    ensures r == 0 <==> forall i | 0 <= i < |t| :: t[i].value != v
  {
    if |t| == 0 then 0
    else (if t[0].value == v then 1 else 0) + CountValue(t[1..], v)
  }

  /** The selector's entries, in display order. The second `CLASS` entry of
      the source is commented out and so is not part of the table. */
  function Table(): (t: seq<Template>)
    ensures |t| == 13
    ensures t[0] == Template("Flowchart", FLOWCHART)
  {
    [ Template("Flowchart", FLOWCHART),
      Template("Mindmap", MINDMAP),
      Template("Timeline", TIMELINE),
      Template("User Journey", USERJOURNEY),
      Template("Class Diagram", CLASS),
      Template("Kanban", KANBAN),
      Template("Entity Relationship", ENTITYRELATIONSHIP),
      Template("Sequence Diagram", SEQUENCE),
      Template("State Diagram", STATE),
      Template("Gantt Chart", GANTT),
      Template("Quandrant Chart", QUANDRANT),
      Template("Sankey Diagram", SANKEY),
      Template("Architecture Diagram", ARCHITECTURE) ]
  }

  /** The labels are pairwise distinct, as their use as React keys needs. */
  lemma TableCaptionsDistinct()
    ensures forall i, j | 0 <= i < j < |Table()| :: Table()[i].caption != Table()[j].caption
  {
  }

  /** No template is listed twice. */
  lemma TableValuesDistinct()
    ensures forall i, j | 0 <= i < j < |Table()| :: Table()[i].value != Table()[j].value
  {
  }

  /** In a table with distinct values, a listed value is counted once. */
  lemma {:induction false} CountDistinct(t: seq<Template>, i: nat)
    requires forall a, b | 0 <= a < b < |t| :: t[a].value != t[b].value
    requires i < |t|
    ensures CountValue(t, t[i].value) == 1
    decreases |t|
  {
    if i == 0 {
      assert forall b | 0 <= b < |t[1..]| :: t[1..][b].value != t[0].value by {
        forall b | 0 <= b < |t[1..]| ensures t[1..][b].value != t[0].value {
          assert t[1..][b] == t[b + 1];
        }
      }
    } else {
      CountDistinct(t[1..], i - 1);
    }
  }

  /** Every member of the enum is offered exactly once; in particular `CLASS`
      appears once although the source lists it twice, once commented out. */
  lemma EveryTemplateOnce(v: TemplateEnum)
    ensures CountValue(Table(), v) == 1
  {
    var t := Table();
    var i := match v
      case FLOWCHART => 0 case MINDMAP => 1 case TIMELINE => 2 case USERJOURNEY => 3
      case CLASS => 4 case KANBAN => 5 case ENTITYRELATIONSHIP => 6 case SEQUENCE => 7
      case STATE => 8 case GANTT => 9 case QUANDRANT => 10 case SANKEY => 11
      case ARCHITECTURE => 12;
    assert t[i].value == v;
    TableValuesDistinct();
    CountDistinct(t, i);
  }

  /** `templates.find(t => t.value === sel)`: index of the first entry whose
      value is `sel`. */
  function FindByValue(t: seq<Template>, ev: EnumValues, sel: string): (r: Option<nat>)
    ensures r.Some? ==> r.value < |t| && ev(t[r.value].value) == sel
    ensures r.Some? ==> forall j | 0 <= j < r.value :: ev(t[j].value) != sel
    ensures r.None? ==> forall j | 0 <= j < |t| :: ev(t[j].value) != sel
  {
    if |t| == 0 then None
    else if ev(t[0].value) == sel then Some(0)
    else match FindByValue(t[1..], ev, sel)
      case None => None
      case Some(i) => Some(i + 1)
  }

  /** `getSelectedTemplateLabel`: label of the first entry whose value is
      the selection, or "Flowchart" when none is. */
  function LabelFor(ev: EnumValues, sel: string): (r: string)
    ensures exists i | 0 <= i < |Table()| :: r == Table()[i].caption
    ensures (forall i | 0 <= i < |Table()| :: ev(Table()[i].value) != sel) ==> r == "Flowchart"
    ensures forall i | 0 <= i < |Table()| && ev(Table()[i].value) == sel ::
      exists j | 0 <= j <= i :: r == Table()[j].caption && ev(Table()[j].value) == sel
  {
    match FindByValue(Table(), ev, sel)
    case Some(i) => Table()[i].caption
    case None => "Flowchart"
  }

  /** When the enum's strings are distinct, selecting an entry's value shows
      that entry's label. */
  lemma LabelOfListedValue(ev: EnumValues, i: nat)
    requires Injective(ev)
    requires i < |Table()|
    ensures LabelFor(ev, ev(Table()[i].value)) == Table()[i].caption
  {
    var t := Table();
    var r := FindByValue(t, ev, ev(t[i].value));
    TableValuesDistinct();
    assert r.Some?;
    assert t[r.value].value == t[i].value;
  }

  /** One `<option>` element. */
  datatype OptionElement = OptionElement(value: string, key: string, text: string)

  /** The selector's options: one per table entry, in table order. Each
      option's value is the entry's enum string; its key and its text are
      the entry's label (the `caption` field here). */
  function RenderOptions(t: seq<Template>, ev: EnumValues): (r: seq<OptionElement>)
    ensures |r| == |t|
    ensures forall i | 0 <= i < |t| ::
      r[i] == OptionElement(ev(t[i].value), t[i].caption, t[i].caption)
  {
    if |t| == 0 then [] else [OptionElement(ev(t[0].value), t[0].caption, t[0].caption)] + RenderOptions(t[1..], ev)
  }

  /** The rendered options have pairwise distinct keys, as React requires. */
  lemma RenderedKeysDistinct(ev: EnumValues)
    ensures var r := RenderOptions(Table(), ev);
      forall i, j | 0 <= i < j < |r| :: r[i].key != r[j].key
  {
    TableCaptionsDistinct();
  }
}

=== FILE: wrappers.dfy ===
/** Optional values and success-or-failure results, used for JavaScript's
    `undefined`/`null` and for thrown errors. */
module Wrappers {

  datatype Option<+T> = None | Some(value: T) {

    /** The value, or `default` when there is none. */
    function GetOr(default: T): T {
      match this
      case Some(v) => v
      case None => default
    }
  }

  /** `Success` carries a value; `Failure` carries the message of a thrown error. */
  datatype Result<+R, +E> = Success(value: R) | Failure(error: E)
}
